=== FILE: README.md ===
# Coffee supply-chain chaincode, modelled in Dafny

This project models the smart contract that tracks a coffee order from the farm
to the ordering organisation on a Hyperledger Fabric ledger. The model covers:

- the two records the contract stores: an `Order` and the `Batch`es produced
  for it;
- the five transactions that change them: `placeOrder`, `createBatch`,
  `shipBatch`, `updateTemperatureAndHumidity` and `deliverBatch`;
- the four read-only transactions: `queryOrder`, `queryBatch`,
  `getOrderHistory` and `getBatchHistory`.

The world state is a `map<string, Record>`. Orders and batches share one key
space, so `Record` is either an `OrderRecord` or a `BatchRecord`. Each mutating
transaction is a pure function from the state before it to `Result<Store, Error>`.
Every `throw` in the contract happens before its first `putState`, so an
`Err` stands for a transaction that commits nothing. The history readers take
the key's changelog as a sequence of modifications, in the order the ledger's
history iterator yields them.

Modules, following the source's layout:

- `Wrappers`: `Option` and `Result`.
- `Records`: the order and batch statuses with the exact strings the contract
  writes (including `ORDER_FULLFILLED`), the `Order`, `Batch` and `Record`
  datatypes, and the class defaults (`models/order.ts`, `models/batch.ts`).
- `Ledger`: the store, the error kinds, and the `Consistent` invariant. Under
  `Consistent`, every order sits under its own `orderId` and lists distinct
  existing batches that name it. Every batch sits under its own `batchId` and
  is listed by the order it names.
- `Chaincode`: the seven state and query transactions of `chaincode.ts`.
- `History`: the changelog reader behind `getOrderHistory` and `getBatchHistory`.
- `Invariants`: how transactions relate to `Consistent` and to each other.
  It also defines a dispatcher (`Apply`/`Run`) that applies a sequence of
  submitted transactions and commits nothing for the ones that throw.
- `Reconciliation`: the delivery rule the contract's comment describes (see
  Findings).
- `RecordKinds`: `shipBatch` as written on a key that holds an order (see
  Findings).
- `Scenarios`: concrete runs, including the client script's run.

The model follows the code as written, including where it departs from what
its names and comments suggest:

- Order statuses are only `ORDER_PLACED`, `IN_PROGRESS` and `ORDER_FULLFILLED`.
  Statuses are not monotonic: `createBatch` puts a fulfilled order back to
  `IN_PROGRESS`.
- `shipBatch` accepts a batch in any status. It only checks that the key the
  batch's `orderId` names is present, whatever kind of record it holds.
- `deliverBatch` reconciles against all batches the order lists, delivered
  or not (see Findings). It writes the order under the order's own `orderId`
  property, not under the batch's `orderId`. `Consistent` makes the two equal.
- When `deliverBatch` is called on an absent key, the contract's
  `if (!batchBytes)` test does not catch the empty buffer. The transaction
  still throws, because the `JSON.parse` of the empty string fails. The model
  reports `NotFound` in both cases.
- `queryOrder` and `queryBatch` return whatever record is stored under the
  key, of either kind.
- The sum in `deliverBatch` reads the `quantity` property of whatever record is
  stored under each listed id (`Record.Quantity`). An order also has a
  `quantity`. Under `Consistent`, every listed id holds a batch.

## Model

| member | source | states |
|---|---|---|
| Records.StatusNamesRoundTrip | chaincode-coffee/src/chaincode.ts:148-152 | distinct statuses are written as distinct strings, so each reads back as itself and the test against 'IN_TRANSIT' holds exactly for the in-transit status |
| Records.ParseOrderStatus | chaincode-coffee/src/models/order.ts:26-27 | reading an order status string yields a status whose string is that string, or nothing when no status is written as that string |
| Records.ParseBatchStatus | chaincode-coffee/src/models/batch.ts:11-12 | reading a batch status string yields a status whose string is that string, or nothing when no status is written as that string |
| Records.FreshOrderDefaults | chaincode-coffee/src/models/order.ts:5-30 | a new order has docType 'order', empty strings for its ids, names and dates, quantity 0, status 'ORDER_PLACED' and no batch ids |
| Records.FreshBatchDefaults | chaincode-coffee/src/models/batch.ts:5-21 | a new batch has docType 'batch', an empty batchId, status 'AT_FARM', quantity 0, and no temperature or humidity |
| Ledger.FirstMissing | chaincode-coffee/src/chaincode.ts:161-165 | the reported id is the first listed id that is absent: every id before it is present; nothing is reported exactly when every listed id is present |
| Ledger.SumQuantities | chaincode-coffee/src/chaincode.ts:159-169 | the total of the stored quantities under the listed ids: one id gives its own quantity; when no listed quantity is negative the total is non-negative and at least each listed quantity |
| Ledger.SumQuantitiesFrame | chaincode-coffee/src/chaincode.ts:159-169 | the reconciliation total depends only on the quantities stored under the listed ids |
| Ledger.NoBatchInTwoOrders | chaincode-coffee/src/chaincode.ts:52-77 | in a consistent state, a batch id listed by two orders means the two orders are the same order |
| Chaincode.PlaceOrder | chaincode-coffee/src/chaincode.ts:13-41 | fails with AlreadyExists exactly when the key is occupied; otherwise adds only that key, holding an 'order' with the given fields, status ORDER_PLACED, no batch ids and the transaction date |
| Chaincode.CreateBatch | chaincode-coffee/src/chaincode.ts:45-82 | fails with AlreadyExists on an occupied batch key (checked first), NotFound on an absent order; succeeds exactly when the batch key is free and the order key holds an order; adds a READY_FOR_DELIVERY batch with no readings, appends its id to the order and sets the order IN_PROGRESS, changing no other key |
| Chaincode.ShipBatch | chaincode-coffee/src/chaincode.ts:86-104 | succeeds, from any status, exactly when the batch exists and its order key is present; sets only the batch's status to IN_TRANSIT and its owner, keeping goods, readings and every other key |
| Chaincode.UpdateTemperatureAndHumidity | chaincode-coffee/src/chaincode.ts:108-124 | succeeds exactly when the key holds a batch; overwrites only its temperature and humidity, keeping status, owner, goods and every other key |
| Chaincode.Reconcile | chaincode-coffee/src/chaincode.ts:171-178 | the order ends fulfilled exactly when the total reaches the ordered quantity or it already was; below the quantity the order is unchanged; only the status can change |
| Chaincode.DeliverBatch | chaincode-coffee/src/chaincode.ts:128-183 | fails on an absent batch, with NotFound on an absent order, with NotInTransit on a batch not in transit; succeeds exactly when the batch is in transit, its order exists and every listed batch is present; then, unless the order's own orderId is the batch key (which a consistent state rules out), the batch is DELIVERED to the new owner; the order is reconciled against the total of the listed batches, and no other key changes |
| Chaincode.QueryOrder | chaincode-coffee/src/chaincode.ts:187-193 | returns the stored record exactly when the key is present, NotFound otherwise |
| Chaincode.QueryBatch | chaincode-coffee/src/chaincode.ts:196-202 | returns the stored record exactly when the key is present, NotFound otherwise |
| Invariants.PlaceOrderPreservesConsistency | chaincode-coffee/src/chaincode.ts:21-40 | a successful placeOrder keeps the state consistent |
| Invariants.LinkNewBatch | chaincode-coffee/src/chaincode.ts:52-81 | appending an id whose key was free to an existing order, and storing a batch under that id naming the order, keeps the state consistent |
| Invariants.CreateBatchPreservesConsistency | chaincode-coffee/src/chaincode.ts:52-81 | a successful createBatch keeps batch ids existing, distinct and listed by exactly their order |
| Invariants.ShipBatchPreservesConsistency | chaincode-coffee/src/chaincode.ts:87-103 | a successful shipBatch keeps the state consistent |
| Invariants.UpdateTemperatureAndHumidityPreservesConsistency | chaincode-coffee/src/chaincode.ts:114-123 | a successful updateTemperatureAndHumidity keeps the state consistent |
| Invariants.RewriteLinkedPair | chaincode-coffee/src/chaincode.ts:141-181 | rewriting a batch and a different order in place, each keeping the ids it links by, keeps the state consistent |
| Invariants.DeliverBatchPreservesConsistency | chaincode-coffee/src/chaincode.ts:131-181 | a successful deliverBatch keeps the state consistent |
| Invariants.DeliverBatchInConsistentStore | chaincode-coffee/src/chaincode.ts:152-181 | in a consistent state, delivery writes exactly the batch and its order, which are two existing keys; the order is fulfilled exactly when the listed quantities reach its quantity, and is otherwise unchanged; re-reading the batches after the batch write gives the same total |
| Invariants.DeliverBatchSucceedsInConsistentStore | chaincode-coffee/src/chaincode.ts:131-169 | in a consistent state, delivering an existing batch succeeds exactly when the batch is in transit |
| Invariants.ShipBatchIdempotent | chaincode-coffee/src/chaincode.ts:100-103 | shipping the same batch to the same owner twice gives the same state as shipping it once |
| Invariants.QueryAfterPlaceOrder | chaincode-coffee/src/chaincode.ts:26-40 | after placeOrder, queryOrder returns an order with the fresh order's docType and status, no batch ids and the transaction date |
| Invariants.QueryAfterCreateBatch | chaincode-coffee/src/chaincode.ts:64-81 | after createBatch, queryBatch returns a READY_FOR_DELIVERY batch with no readings, and queryOrder returns an IN_PROGRESS order one batch id longer, ending with the new id |
| Invariants.ApplyPreservesConsistency | chaincode-coffee/src/chaincode.ts:12-183 | every transaction that succeeds on a consistent state leaves it consistent |
| Invariants.RunPreservesConsistency | chaincode-coffee/src/chaincode.ts:12-183 | any sequence of transactions, with the failed ones committing nothing, keeps a consistent state consistent |
| Invariants.Reachable | chaincode-coffee/src/chaincode.ts:52-77 | every state reachable from the empty ledger is consistent: listed batch ids name existing, distinct batches of that order |
| RecordKinds.ShipBatchAsWritten | chaincode-coffee/src/chaincode.ts:86-104 | as written, shipBatch succeeds exactly when the key is present and the key named by its record's `orderId` is present, whatever kind the record is; it writes that record back with status 'IN_TRANSIT' and the new owner |
| RecordKinds.ShipBatchAsWrittenOnBatch | chaincode-coffee/src/chaincode.ts:87-103 | on a key holding a batch, the code as written and the model succeed together and write the same status and owner |
| RecordKinds.ShipBatchOverwritesOrder | chaincode-coffee/src/chaincode.ts:91-103 | in a consistent state, shipping an order key succeeds as written and stores a status no order status is written as; the model fails with WrongKind |
| History.Decode | chaincode-coffee/src/chaincode.ts:212-217 | the history entry keeps the modification's txId, timestamp and isDelete, and holds the decoded value of its non-empty bytes |
| History.KeptAppend | chaincode-coffee/src/chaincode.ts:209-224 | the history of a concatenated changelog is the two histories in order, so changelog order is kept |
| History.KeptLength | chaincode-coffee/src/chaincode.ts:211 | the history is never longer than the changelog, and equally long exactly when no modification has an empty value |
| History.KeptAllValued | chaincode-coffee/src/chaincode.ts:211-218 | without empty values, each history entry keeps the txId, timestamp, decoded value and isDelete of the modification at the same position |
| History.KeptMembership | chaincode-coffee/src/chaincode.ts:211-218 | a change is in the history exactly when some modification with a non-empty value decodes to it |
| History.DrainHistory | chaincode-coffee/src/chaincode.ts:206-225 | the iterator loop returns the changelog's non-empty modifications decoded in order, no more entries than the changelog |
| History.GetBatchHistory | chaincode-coffee/src/chaincode.ts:205-226 | the batch history holds exactly the decoded non-empty modifications, in changelog order, and is no longer than the changelog |
| History.GetOrderHistory | chaincode-coffee/src/chaincode.ts:229-251 | the order history holds exactly the decoded non-empty modifications, in changelog order, and is no longer than the changelog |
| Reconciliation.DeliverBatchIntended | chaincode-coffee/src/chaincode.ts:155-182 | fails only where deliverBatch fails, with the same error; the batch is always delivered, and an order newly marked fulfilled has every other listed batch delivered |
| Reconciliation.IntendedFulfilsOnlyWhenAllDelivered | chaincode-coffee/src/chaincode.ts:155-175 | in a consistent state, after an intended delivery that newly fulfils an order, every batch that order lists is delivered |
| Reconciliation.IntendedFailsLikeDeliverBatch | chaincode-coffee/src/chaincode.ts:131-165 | every failure of the intended rule is deliverBatch's failure with the same error, and on a consistent state the two succeed together; off a consistent state deliverBatch can still fail on an absent listed id that the intended rule never reads |
| Reconciliation.IntendedAgreesWhenOthersDelivered | chaincode-coffee/src/chaincode.ts:155-181 | when the other listed batches are already delivered, the intended rule and the contract as written give the same result |
| Reconciliation.DeliverBatchIntendedPreservesConsistency | chaincode-coffee/src/chaincode.ts:152-181 | the intended delivery keeps the state consistent |
| Scenarios.ClientScriptFulfilsOrder | backend/src/example.js:65-83 | place, create, ship, two readings and deliver: the batch ends delivered to ORG3 with readings 32/12 and the order ends ORDER_FULLFILLED |
| Scenarios.UnderSuppliedOrderNotFulfilled | chaincode-coffee/src/chaincode.ts:174-178 | an order for 150 with one delivered batch of 100 stays IN_PROGRESS and is written back unchanged |
| Scenarios.SplitOrderReached | chaincode-coffee/src/chaincode.ts:45-104 | placing an order for 100, creating two batches of 60 and shipping the first reaches the state with B1 in transit and B2 ready for delivery |
| Scenarios.FulfilledBeforeAllDelivered | chaincode-coffee/src/chaincode.ts:155-157 | an order for 100 in two batches of 60: delivering the first fulfils it as written while the second is still READY_FOR_DELIVERY; the intended rule leaves it IN_PROGRESS |
| Scenarios.ShipOrderKey | chaincode-coffee/src/chaincode.ts:86-104 | after placing order O1, shipBatch on O1 succeeds as written and writes the order back with status 'IN_TRANSIT' and owner ORG2; the model fails with WrongKind and leaves O1 as placed |
| Scenarios.AbsentListedBatch | chaincode-coffee/src/chaincode.ts:155-165 | on an order that lists an absent id, deliverBatch fails with NotFound for that id, while the intended rule succeeds without reading the listed batches |

## Left out

- JSON and `Buffer` encoding: records are stored as datatypes, not as bytes.
  A key is present exactly when it holds non-empty bytes.
- The conversion of the transaction timestamp to an ISO date string
  (`chaincode.ts:31-34`): `PlaceOrder` takes the resulting `orderDate` as a
  parameter.
- The async history iterator, `iterator.close()` and the `done` flag: the
  changelog is a finite sequence, and `DrainHistory` walks it in order.
- Quantities, temperatures and humidities are JavaScript numbers. They are
  modelled as unbounded `int`. Floating-point sums, `NaN` and non-integer
  inputs are not modelled. No quantity is rejected, as in the code.
- Chaincode.UpdateTemperatureAndHumidity: fails with `WrongKind` when the key
  holds an order. The code would add `temperature` and `humidity` properties
  to the stored order. The `Order` datatype has no such fields.
- Chaincode.ShipBatch: fails with `WrongKind` when the key holds an order.
  The code reads the order's own `orderId`, which names the order's key, so it
  succeeds and writes the order back with status 'IN_TRANSIT', which is not an
  order status, and a `productOwner`. `RecordKinds.ShipBatchAsWritten` models
  that write (see Findings).
- Chaincode.DeliverBatch: fails with `WrongKind` when the key holds an order.
  The code reads the order's own `orderId` and finds the order there. It
  throws at the 'IN_TRANSIT' status test only while the order's status is not
  'IN_TRANSIT'. After an as-written `shipBatch` on the same key, the order's
  status is 'IN_TRANSIT' and the code goes on: it sums the batches the order
  lists and writes the order back as 'IN_TRANSIT' or 'ORDER_FULLFILLED'
  (see Findings). The model's `Order` cannot hold that status.
- Error messages: failures carry an error kind and a key, not the source's
  text.
- `console.log` output, the contract registration in `index.ts`, the HTTP
  server, the database pool and the client script's network calls. The client
  script's sequence of transactions is replayed in
  `Scenarios.ClientScriptFulfilsOrder`.
- Fabric endorsement, ordering, MVCC conflict detection and concurrent
  submission: the model applies transactions one after another.
- History completeness against a ledger (one history entry per committed
  write): the model does not generate changelogs from committed transactions.

## Findings

| source | as written | input that shows it | evidently intended | confidence | as-written member | corrected member |
|---|---|---|---|---|---|---|
| chaincode-coffee/src/chaincode.ts:156 | the "all delivered" guard tests `batch.status`, the batch just set to DELIVERED, for every listed id, so it always holds; the order is then reconciled against the quantities of all listed batches, delivered or not | order O1 for 100 with batches B1 and B2 of 60 each; ship B1, deliver B1 while B2 is still READY_FOR_DELIVERY: O1 becomes ORDER_FULLFILLED | as the code's own comment says, reconcile only once every listed batch is delivered, and always record the delivery | high (not executed) | Chaincode.DeliverBatch, shown by Scenarios.FulfilledBeforeAllDelivered | Reconciliation.DeliverBatchIntended, proved by Reconciliation.IntendedFulfilsOnlyWhenAllDelivered |
| chaincode-coffee/src/chaincode.ts:91-103 | shipBatch parses whatever is stored under the key and never checks that it is a batch; an order's `orderId` names its own key, so the presence test passes | place order O1, then shipBatch("O1", "ORG2"): the order is written back with status 'IN_TRANSIT' and a `productOwner`; a following deliverBatch("O1", owner) then passes the in-transit test, sums the order's listed batches and commits the order as 'IN_TRANSIT' or 'ORDER_FULLFILLED' | ship only batches: fail when the key does not hold a batch | medium (not executed) | RecordKinds.ShipBatchAsWritten, shown by Scenarios.ShipOrderKey and RecordKinds.ShipBatchOverwritesOrder | Chaincode.ShipBatch, whose contract promises success only on a key holding a batch |

The transactions in `Chaincode` follow the contract as written, except that
they refuse a key holding the other kind of record (see Left out). The corrected
delivery rule sits beside them in `Reconciliation`. It keeps `Consistent`,
and when the other batches are already delivered it agrees with the contract.

=== FILE: chaincode.dfy ===
/** The transactions of the coffee supply-chain contract. Each mutating
    transaction is a function from the world state before it to either the
    world state after it or the error it throws; every throw in the contract
    happens before its first write, so an error leaves the state as it was. */
module Chaincode {
  import opened Wrappers
  import opened Records
  import opened Ledger

  /** placeOrder: create an order under a fresh key. `orderDate` is the
      transaction timestamp already rendered as an ISO string. */
  function PlaceOrder(s: Store, orderId: string, coffeeType: string, quantity: int,
                      orderingOrg: string, expectedDelivery: string, orderDate: string): (r: Result<Store, Error>)
    ensures r.Err? <==> orderId in s
    ensures r.Err? ==> r.error == AlreadyExists(orderId)
    ensures r.Ok? ==> r.value.Keys == s.Keys + {orderId}
    ensures r.Ok? ==> forall k | k in s :: r.value[k] == s[k]
    ensures r.Ok? ==> r.value[orderId] == OrderRecord(
      Order("order", orderId, coffeeType, quantity, orderingOrg, orderDate, expectedDelivery, OrderPlaced, []))
  {
    if orderId in s then Err(AlreadyExists(orderId))
    else
      var order := NewOrder().(orderId := orderId, coffeeType := coffeeType, quantity := quantity,
                               orderingOrg := orderingOrg, orderDate := orderDate,
                               expectedDelivery := expectedDelivery, status := OrderPlaced, batchIds := []);
      Ok(s[orderId := OrderRecord(order)])
  }

  /** createBatch: create a batch for an existing order, append its id to the
      order and put the order back in progress. */
  function CreateBatch(s: Store, batchId: string, orderId: string, quantity: int,
                       productOwner: string): (r: Result<Store, Error>)
    ensures batchId in s ==> r == Err(AlreadyExists(batchId))
    ensures batchId !in s && orderId !in s ==> r == Err(NotFound(orderId))
    ensures r.Ok? <==> batchId !in s && HoldsOrder(s, orderId)
    ensures r.Ok? ==> r.value.Keys == s.Keys + {batchId}
    ensures r.Ok? ==> r.value[batchId] == BatchRecord(
      Batch("batch", batchId, orderId, productOwner, ReadyForDelivery, quantity, None, None))
    ensures r.Ok? ==>
      && HoldsOrder(r.value, orderId)
      && r.value[orderId].order.batchIds == s[orderId].order.batchIds + [batchId]
      && r.value[orderId].order == s[orderId].order.(batchIds := r.value[orderId].order.batchIds, status := InProgress)
    ensures r.Ok? ==> forall k | k in s && k != orderId :: r.value[k] == s[k]
  {
    if batchId in s then Err(AlreadyExists(batchId))
    else if orderId !in s then Err(NotFound(orderId))
    else if !s[orderId].OrderRecord? then Err(WrongKind(orderId))
    else
      var created := Batch("batch", batchId, orderId, productOwner, AtFarm, quantity, None, None);
      var batch := created.(status := ReadyForDelivery);
      var order := s[orderId].order;
      var linked := order.(batchIds := order.batchIds + [batchId], status := InProgress);
      Ok(s[orderId := OrderRecord(linked)][batchId := BatchRecord(batch)])
  }

  /** shipBatch: hand a batch to a new owner and mark it in transit, from any
      status, provided the key its `orderId` names is present. */
  function ShipBatch(s: Store, batchId: string, productOwner: string): (r: Result<Store, Error>)
    ensures batchId !in s ==> r == Err(NotFound(batchId))
    ensures r.Ok? <==> HoldsBatch(s, batchId) && s[batchId].batch.orderId in s
    ensures HoldsBatch(s, batchId) && s[batchId].batch.orderId !in s ==> r == Err(NotFound(s[batchId].batch.orderId))
    ensures r.Ok? ==> r.value.Keys == s.Keys && HoldsBatch(r.value, batchId)
    ensures r.Ok? ==> var b, b' := s[batchId].batch, r.value[batchId].batch;
      && SameGoods(b, b')
      && b'.status == InTransit && b'.productOwner == productOwner
      && b'.temperature == b.temperature && b'.humidity == b.humidity
    ensures r.Ok? ==> forall k | k in s && k != batchId :: r.value[k] == s[k]
  {
    if batchId !in s then Err(NotFound(batchId))
    else if !s[batchId].BatchRecord? then Err(WrongKind(batchId))
    else
      var batch := s[batchId].batch;
      if batch.orderId !in s then Err(NotFound(batch.orderId))
      else Ok(s[batchId := BatchRecord(batch.(status := InTransit, productOwner := productOwner))])
  }

  /** updateTemperatureAndHumidity: record the latest readings on a batch. */
  function UpdateTemperatureAndHumidity(s: Store, batchId: string, temperature: int, humidity: int): (r: Result<Store, Error>)
    ensures batchId !in s ==> r == Err(NotFound(batchId))
    ensures r.Ok? <==> HoldsBatch(s, batchId)
    ensures r.Ok? ==> r.value.Keys == s.Keys && HoldsBatch(r.value, batchId)
    ensures r.Ok? ==> var b, b' := s[batchId].batch, r.value[batchId].batch;
      && SameGoods(b, b')
      && b'.status == b.status && b'.productOwner == b.productOwner
      && b'.temperature == Some(temperature) && b'.humidity == Some(humidity)
    ensures r.Ok? ==> forall k | k in s && k != batchId :: r.value[k] == s[k]
  {
    if batchId !in s then Err(NotFound(batchId))
    else if !s[batchId].BatchRecord? then Err(WrongKind(batchId))
    else
      var batch := s[batchId].batch;
      Ok(s[batchId := BatchRecord(batch.(temperature := Some(temperature), humidity := Some(humidity)))])
  }

  /** Everything deliverBatch needs to succeed: the batch exists and is in
      transit, its order exists, and every batch the order lists is present. */
  predicate DeliveryReady(s: Store, batchId: string) {
    && HoldsBatch(s, batchId)
    && s[batchId].batch.status == InTransit
    && HoldsOrder(s, s[batchId].batch.orderId)
    && var ids := s[s[batchId].batch.orderId].order.batchIds;
       forall i | 0 <= i < |ids| :: ids[i] in s
  }

  /** The order's status once `total` units have been counted against it. */
  function Reconcile(order: Order, total: int): (o: Order)
    ensures o.status == OrderFulfilled <==> total >= order.quantity || order.status == OrderFulfilled
    ensures total < order.quantity ==> o == order
    ensures o == order.(status := o.status)
  {
    if total >= order.quantity then order.(status := OrderFulfilled) else order
  }

  /** deliverBatch: hand an in-transit batch to its final owner, mark it
      delivered and reconcile its order against the stored quantities of all
      the batches the order lists. The "all delivered" guard of the contract
      tests the delivered batch's own status, so it always holds. */
  function DeliverBatch(s: Store, batchId: string, productOwner: string): (r: Result<Store, Error>)
    ensures !HoldsBatch(s, batchId) ==> r.Err?
    ensures HoldsBatch(s, batchId) && s[batchId].batch.orderId !in s ==> r == Err(NotFound(s[batchId].batch.orderId))
    ensures HoldsBatch(s, batchId) && s[batchId].batch.orderId in s && s[batchId].batch.status != InTransit ==>
      r == Err(NotInTransit(batchId))
    ensures r.Ok? <==> DeliveryReady(s, batchId)
    ensures r.Ok? ==> var b := s[batchId].batch; var o := s[b.orderId].order;
      && r.value.Keys == s.Keys + {o.orderId}
      && HoldsOrder(r.value, o.orderId)
      && r.value[o.orderId].order == Reconcile(o, SumQuantities(s, o.batchIds))
      && (batchId != o.orderId ==>
            && HoldsBatch(r.value, batchId)
            && var b' := r.value[batchId].batch;
               && SameGoods(b, b') && b'.status == Delivered && b'.productOwner == productOwner
               && b'.temperature == b.temperature && b'.humidity == b.humidity)
      && forall k | k in s && k != batchId && k != o.orderId :: r.value[k] == s[k]
  {
    if batchId !in s then Err(NotFound(batchId))
    else if !s[batchId].BatchRecord? then Err(WrongKind(batchId))
    else
      var batch := s[batchId].batch;
      if batch.orderId !in s then Err(NotFound(batch.orderId))
      else if batch.status != InTransit then Err(NotInTransit(batchId))
      else if !s[batch.orderId].OrderRecord? then Err(WrongKind(batch.orderId))
      else
        var order := s[batch.orderId].order;
        var delivered := batch.(status := Delivered, productOwner := productOwner);
        var allDelivered := forall i | 0 <= i < |order.batchIds| ::
          order.batchIds[i] == batchId || delivered.status == Delivered;
        if !allDelivered then Ok(s)
        else match FirstMissing(s, order.batchIds)
          case Some(id) => Err(NotFound(id))
          case None =>
            var total := SumQuantities(s, order.batchIds);
            Ok(s[batchId := BatchRecord(delivered)][order.orderId := OrderRecord(Reconcile(order, total))])
  }

  /** queryOrder: the record stored under the key, of whichever kind. */
  function QueryOrder(s: Store, orderId: string): (r: Result<Record, Error>)
    ensures r.Ok? <==> orderId in s
    ensures r.Ok? ==> r.value == s[orderId]
    ensures r.Err? ==> r.error == NotFound(orderId)
  {
    if orderId in s then Ok(s[orderId]) else Err(NotFound(orderId))
  }

  /** queryBatch: the record stored under the key, of whichever kind. */
  function QueryBatch(s: Store, batchId: string): (r: Result<Record, Error>)
    ensures r.Ok? <==> batchId in s
    ensures r.Ok? ==> r.value == s[batchId]
    ensures r.Err? ==> r.error == NotFound(batchId)
  {
    if batchId in s then Ok(s[batchId]) else Err(NotFound(batchId))
  }
}

=== FILE: history.dfy ===
/** Reading a key's changelog back as a list of decoded changes
    (getBatchHistory / getOrderHistory). The changelog is given as the
    sequence of modifications the ledger's history iterator yields, in the
    order it yields them. */
module History {
  import opened Wrappers
  import opened Records

  /** The ledger's timestamp of a transaction. It is only passed through. */
  datatype Timestamp = Timestamp(seconds: int, nanos: int)

  /** One modification of a key. `value` is `None` when the stored bytes are
      empty, as they are for a deletion. */
  datatype Modification = Modification(txId: string, timestamp: Timestamp, value: Option<Record>, isDelete: bool)

  /** One entry of the returned history, with the value decoded. */
  datatype Change = Change(txId: string, timestamp: Timestamp, value: Record, isDelete: bool)

  function Decode(m: Modification): (c: Change)
    requires m.value.Some?
    ensures c.txId == m.txId && c.timestamp == m.timestamp && c.isDelete == m.isDelete
    ensures Some(c.value) == m.value
  {
    Change(m.txId, m.timestamp, m.value.value, m.isDelete)
  }

  /** Reference definition: the modifications with a value, decoded, in
      changelog order. */
  function Kept(log: seq<Modification>): seq<Change> {
    if |log| == 0 then []
    else if log[0].value.Some? then [Decode(log[0])] + Kept(log[1..])
    else Kept(log[1..])
  }

  /** Filtering a concatenation filters each part and keeps them in order. */
  lemma {:induction false} KeptAppend(a: seq<Modification>, b: seq<Modification>)
    ensures Kept(a + b) == Kept(a) + Kept(b)
  {
    if |a| == 0 {
      assert a + b == b;
    } else {
      assert (a + b)[0] == a[0];
      assert (a + b)[1..] == a[1..] + b;
      KeptAppend(a[1..], b);
    }
  }

  /** The history is never longer than the changelog, and is as long exactly
      when no modification has an empty value. */
  lemma {:induction false} KeptLength(log: seq<Modification>)
    ensures |Kept(log)| <= |log|
    ensures |Kept(log)| == |log| <==> forall i | 0 <= i < |log| :: log[i].value.Some?
  {
    if |log| > 0 {
      KeptLength(log[1..]);
      if log[0].value.Some? {
        if forall i | 0 <= i < |log[1..]| :: log[1..][i].value.Some? {
          forall i | 0 <= i < |log| ensures log[i].value.Some? {
            if i > 0 { assert log[i] == log[1..][i - 1]; }
          }
        } else {
          var j :| 0 <= j < |log[1..]| && log[1..][j].value.None?;
          assert log[j + 1].value.None?;
        }
      }
    }
  }

  /** When no modification has an empty value, the history decodes the
      changelog entry by entry, keeping each position. */
  lemma {:induction false} KeptAllValued(log: seq<Modification>)
    requires forall i | 0 <= i < |log| :: log[i].value.Some?
    ensures |Kept(log)| == |log|
    ensures forall i | 0 <= i < |log| :: Kept(log)[i] == Decode(log[i])
  {
    if |log| > 0 {
      assert forall i | 0 <= i < |log[1..]| :: log[1..][i] == log[i + 1];
      KeptAllValued(log[1..]);
      forall i | 0 <= i < |log| ensures Kept(log)[i] == Decode(log[i]) {
        if i > 0 {
          assert Kept(log)[i] == Kept(log[1..])[i - 1];
        }
      }
    }
  }

  /** A change is in the history exactly when some modification with a value
      decodes to it. */
  lemma {:induction false} KeptMembership(log: seq<Modification>, c: Change)
    ensures c in Kept(log) <==> exists i | 0 <= i < |log| :: log[i].value.Some? && Decode(log[i]) == c
  {
    if |log| > 0 {
      KeptMembership(log[1..], c);
      if exists i | 0 <= i < |log| :: log[i].value.Some? && Decode(log[i]) == c {
        var i :| 0 <= i < |log| && log[i].value.Some? && Decode(log[i]) == c;
        if i > 0 {
          assert log[1..][i - 1] == log[i];
        }
      }
      if exists i | 0 <= i < |log[1..]| :: log[1..][i].value.Some? && Decode(log[1..][i]) == c {
        var i :| 0 <= i < |log[1..]| && log[1..][i].value.Some? && Decode(log[1..][i]) == c;
        assert log[i + 1] == log[1..][i];
      }
    }
  }

  /** The loop of the history readers: pull modifications off the iterator
      until it is done, keeping and decoding those with a non-empty value. */
  method DrainHistory(log: seq<Modification>) returns (results: seq<Change>)
    ensures results == Kept(log)
    ensures |results| <= |log|
  {
    results := [];
    var i := 0;
    while i < |log|
      invariant 0 <= i <= |log|
      invariant results == Kept(log[..i])
    {
      KeptAppend(log[..i], [log[i]]);
      assert log[..i + 1] == log[..i] + [log[i]];
      if log[i].value.Some? {
        results := results + [Decode(log[i])];
      }
      i := i + 1;
    }
    assert log[..i] == log;
    KeptLength(log);
  }

  /** getBatchHistory: the decoded history of a batch key. */
  method GetBatchHistory(log: seq<Modification>) returns (results: seq<Change>)
    ensures |results| <= |log|
    ensures forall c :: c in results <==> exists i | 0 <= i < |log| :: log[i].value.Some? && Decode(log[i]) == c
    ensures results == Kept(log)
  {
    results := DrainHistory(log);
    forall c ensures c in results <==> exists i | 0 <= i < |log| :: log[i].value.Some? && Decode(log[i]) == c {
      KeptMembership(log, c);
    }
  }

  /** getOrderHistory: the decoded history of an order key. */
  method GetOrderHistory(log: seq<Modification>) returns (results: seq<Change>)
    ensures |results| <= |log|
    ensures forall c :: c in results <==> exists i | 0 <= i < |log| :: log[i].value.Some? && Decode(log[i]) == c
    ensures results == Kept(log)
  {
    results := DrainHistory(log);
    forall c ensures c in results <==> exists i | 0 <= i < |log| :: log[i].value.Some? && Decode(log[i]) == c {
      KeptMembership(log, c);
    }
  }
}

=== FILE: invariants.dfy ===
/** Properties that relate several transactions, or a transaction and the
    referential-integrity invariant of the world state. */
module Invariants {
  import opened Wrappers
  import opened Records
  import opened Ledger
  import opened Chaincode

  lemma PlaceOrderPreservesConsistency(s: Store, orderId: string, coffeeType: string, quantity: int,
                                       orderingOrg: string, expectedDelivery: string, orderDate: string)
    requires Consistent(s)
    requires PlaceOrder(s, orderId, coffeeType, quantity, orderingOrg, expectedDelivery, orderDate).Ok?
    ensures Consistent(PlaceOrder(s, orderId, coffeeType, quantity, orderingOrg, expectedDelivery, orderDate).value)
  {
    var s' := PlaceOrder(s, orderId, coffeeType, quantity, orderingOrg, expectedDelivery, orderDate).value;
    forall k | k in s' && HoldsOrder(s', k) ensures s'[k].order.orderId == k && ListsOwnBatches(s', k) {
      if k != orderId { assert ListsOwnBatches(s, k); }
    }
    forall k | k in s' && HoldsBatch(s', k) ensures BatchLinked(s', k) {
      assert BatchLinked(s, k);
    }
  }

  /** Linking a new batch, under a free key, to an existing order keeps the
      state consistent. */
  lemma LinkNewBatch(s: Store, s': Store, batchId: string, orderId: string, linked: Order, batch: Batch)
    requires Consistent(s)
    requires batchId !in s && HoldsOrder(s, orderId)
    requires linked == s[orderId].order.(batchIds := s[orderId].order.batchIds + [batchId], status := linked.status)
    requires batch.batchId == batchId && batch.orderId == orderId
    requires s' == s[orderId := OrderRecord(linked)][batchId := BatchRecord(batch)]
    ensures Consistent(s')
  {
    var ids := s[orderId].order.batchIds;
    var ids' := ids + [batchId];
    assert ListsOwnBatches(s, orderId);
    forall k | k in s' && HoldsOrder(s', k) ensures s'[k].order.orderId == k && ListsOwnBatches(s', k) {
      if k == orderId {
        forall i | 0 <= i < |ids'| ensures HoldsBatch(s', ids'[i]) && s'[ids'[i]].batch.orderId == k {
          if i < |ids| {
            assert ids'[i] == ids[i] && HoldsBatch(s, ids[i]);
          }
        }
        assert Distinct(ids') by {
          assert forall i | 0 <= i < |ids| :: ids'[i] == ids[i] && ids[i] in s;
        }
      } else {
        assert ListsOwnBatches(s, k);
        var ks := s[k].order.batchIds;
        assert forall i | 0 <= i < |ks| :: HoldsBatch(s, ks[i]) && ks[i] != orderId && ks[i] != batchId;
      }
    }
    forall k | k in s' && HoldsBatch(s', k) ensures BatchLinked(s', k) {
      if k != batchId { assert BatchLinked(s, k); }
    }
  }

  lemma CreateBatchPreservesConsistency(s: Store, batchId: string, orderId: string, quantity: int, productOwner: string)
    requires Consistent(s)
    requires CreateBatch(s, batchId, orderId, quantity, productOwner).Ok?
    ensures Consistent(CreateBatch(s, batchId, orderId, quantity, productOwner).value)
  {
    var order := s[orderId].order;
    var linked := order.(batchIds := order.batchIds + [batchId], status := InProgress);
    var batch := Batch("batch", batchId, orderId, productOwner, ReadyForDelivery, quantity, None, None);
    LinkNewBatch(s, s[orderId := OrderRecord(linked)][batchId := BatchRecord(batch)], batchId, orderId, linked, batch);
  }

  lemma ShipBatchPreservesConsistency(s: Store, batchId: string, productOwner: string)
    requires Consistent(s)
    requires ShipBatch(s, batchId, productOwner).Ok?
    ensures Consistent(ShipBatch(s, batchId, productOwner).value)
  {
    var s' := ShipBatch(s, batchId, productOwner).value;
    forall k | k in s' && HoldsOrder(s', k) ensures s'[k].order.orderId == k && ListsOwnBatches(s', k) {
      assert ListsOwnBatches(s, k);
    }
    forall k | k in s' && HoldsBatch(s', k) ensures BatchLinked(s', k) {
      assert BatchLinked(s, k);
    }
  }

  lemma UpdateTemperatureAndHumidityPreservesConsistency(s: Store, batchId: string, temperature: int, humidity: int)
    requires Consistent(s)
    requires UpdateTemperatureAndHumidity(s, batchId, temperature, humidity).Ok?
    ensures Consistent(UpdateTemperatureAndHumidity(s, batchId, temperature, humidity).value)
  {
    var s' := UpdateTemperatureAndHumidity(s, batchId, temperature, humidity).value;
    forall k | k in s' && HoldsOrder(s', k) ensures s'[k].order.orderId == k && ListsOwnBatches(s', k) {
      assert ListsOwnBatches(s, k);
    }
    forall k | k in s' && HoldsBatch(s', k) ensures BatchLinked(s', k) {
      assert BatchLinked(s, k);
    }
  }

  /** Rewriting a batch and an order in place, each keeping the keys it links
      by, keeps the state consistent. */
  lemma RewriteLinkedPair(s: Store, batchId: string, orderId: string, batch: Batch, order: Order)
    requires Consistent(s)
    requires HoldsBatch(s, batchId) && HoldsOrder(s, orderId) && batchId != orderId
    requires batch.batchId == batchId && batch.orderId == s[batchId].batch.orderId
    requires order.orderId == orderId && order.batchIds == s[orderId].order.batchIds
    ensures Consistent(s[batchId := BatchRecord(batch)][orderId := OrderRecord(order)])
  {
    var s' := s[batchId := BatchRecord(batch)][orderId := OrderRecord(order)];
    forall k | k in s' && HoldsOrder(s', k) ensures s'[k].order.orderId == k && ListsOwnBatches(s', k) {
      assert ListsOwnBatches(s, k);
      var ks := s[k].order.batchIds;
      assert forall i | 0 <= i < |ks| :: HoldsBatch(s, ks[i]) && ks[i] != orderId;
    }
    forall k | k in s' && HoldsBatch(s', k) ensures BatchLinked(s', k) {
      assert BatchLinked(s, k);
    }
  }

  lemma DeliverBatchPreservesConsistency(s: Store, batchId: string, productOwner: string)
    requires Consistent(s)
    requires DeliverBatch(s, batchId, productOwner).Ok?
    ensures Consistent(DeliverBatch(s, batchId, productOwner).value)
  {
    var b := s[batchId].batch;
    assert BatchLinked(s, batchId);
    var o := s[b.orderId].order;
    assert o.orderId == b.orderId;
    assert b.orderId != batchId;
    var delivered := b.(status := Delivered, productOwner := productOwner);
    var reconciled := Reconcile(o, SumQuantities(s, o.batchIds));
    RewriteLinkedPair(s, batchId, b.orderId, delivered, reconciled);
  }

  /** In a consistent state deliverBatch writes exactly the batch and the
      order it names (two different keys), marks the batch delivered, and
      fulfils the order exactly when the listed batches' quantities reach the
      ordered quantity. Re-reading the listed batches after the batch write
      would give the same total. */
  lemma DeliverBatchInConsistentStore(s: Store, batchId: string, productOwner: string)
    requires Consistent(s)
    requires DeliverBatch(s, batchId, productOwner).Ok?
    ensures var s', b := DeliverBatch(s, batchId, productOwner).value, s[batchId].batch;
      var o := s[b.orderId].order;
      && b.orderId != batchId
      && s'.Keys == s.Keys
      && s'[batchId] == BatchRecord(b.(status := Delivered, productOwner := productOwner))
      && HoldsOrder(s', b.orderId)
      && s'[b.orderId].order.batchIds == o.batchIds
      && (s'[b.orderId].order.status == OrderFulfilled <==>
            SumQuantities(s, o.batchIds) >= o.quantity || o.status == OrderFulfilled)
      && (SumQuantities(s, o.batchIds) < o.quantity ==> s'[b.orderId] == s[b.orderId])
      && SumQuantities(s', o.batchIds) == SumQuantities(s, o.batchIds)
      && forall k | k in s && k != batchId && k != b.orderId :: s'[k] == s[k]
  {
    var s', b := DeliverBatch(s, batchId, productOwner).value, s[batchId].batch;
    var o := s[b.orderId].order;
    assert BatchLinked(s, batchId);
    assert o.orderId == b.orderId;
    forall i | 0 <= i < |o.batchIds|
      ensures o.batchIds[i] in s' && s[o.batchIds[i]].Quantity() == s'[o.batchIds[i]].Quantity()
    {
      assert ListsOwnBatches(s, b.orderId);
    }
    SumQuantitiesFrame(s, s', o.batchIds);
  }

  /** In a consistent state the only reason deliverBatch can fail on an
      existing batch is that the batch is not in transit. */
  lemma DeliverBatchSucceedsInConsistentStore(s: Store, batchId: string, productOwner: string)
    requires Consistent(s)
    requires HoldsBatch(s, batchId)
    ensures DeliverBatch(s, batchId, productOwner).Ok? <==> s[batchId].batch.status == InTransit
  {
    var b := s[batchId].batch;
    assert BatchLinked(s, batchId);
    assert ListsOwnBatches(s, b.orderId);
  }

  /** Shipping a batch a second time to the same owner changes nothing. */
  lemma ShipBatchIdempotent(s: Store, batchId: string, productOwner: string)
    requires ShipBatch(s, batchId, productOwner).Ok?
    ensures ShipBatch(ShipBatch(s, batchId, productOwner).value, batchId, productOwner)
         == ShipBatch(s, batchId, productOwner)
  {
    var s1 := ShipBatch(s, batchId, productOwner).value;
    var s2 := ShipBatch(s1, batchId, productOwner).value;
    assert s1[batchId].batch.orderId == s[batchId].batch.orderId;
    assert s2[batchId] == s1[batchId];
    assert s2 == s1;
  }

  /** After placeOrder, queryOrder returns the placed order. */
  lemma QueryAfterPlaceOrder(s: Store, orderId: string, coffeeType: string, quantity: int,
                             orderingOrg: string, expectedDelivery: string, orderDate: string)
    requires orderId !in s
    ensures var s' := PlaceOrder(s, orderId, coffeeType, quantity, orderingOrg, expectedDelivery, orderDate).value;
      var q := QueryOrder(s', orderId);
      && q.Ok? && q.value.OrderRecord?
      && q.value.order.status == NewOrder().status
      && q.value.order.docType == NewOrder().docType
      && q.value.order.batchIds == []
      && q.value.order.orderDate == orderDate
  {
  }

  /** After createBatch, queryBatch returns a ready-for-delivery batch with
      no readings, and the order lists the new batch last. */
  lemma QueryAfterCreateBatch(s: Store, batchId: string, orderId: string, quantity: int, productOwner: string)
    requires batchId !in s && HoldsOrder(s, orderId)
    ensures var s' := CreateBatch(s, batchId, orderId, quantity, productOwner).value;
      var qb, qo := QueryBatch(s', batchId), QueryOrder(s', orderId);
      && qb.Ok? && qb.value.BatchRecord?
      && qb.value.batch.status == ReadyForDelivery
      && qb.value.batch.temperature.None? && qb.value.batch.humidity.None?
      && qo.Ok? && qo.value.OrderRecord?
      && qo.value.order.status == InProgress
      && |qo.value.order.batchIds| == |s[orderId].order.batchIds| + 1
      && qo.value.order.batchIds[|qo.value.order.batchIds| - 1] == batchId
  {
  }

  /** One submitted transaction, as the dispatcher hands it to the contract. */
  datatype Transaction =
    | PlaceOrderTx(orderId: string, coffeeType: string, quantity: int, orderingOrg: string,
                   expectedDelivery: string, orderDate: string)
    | CreateBatchTx(batchId: string, orderId: string, quantity: int, productOwner: string)
    | ShipBatchTx(batchId: string, productOwner: string)
    | UpdateTemperatureAndHumidityTx(batchId: string, temperature: int, humidity: int)
    | DeliverBatchTx(batchId: string, productOwner: string)

  function Apply(s: Store, tx: Transaction): Result<Store, Error> {
    match tx
    case PlaceOrderTx(id, ct, q, org, ed, od) => PlaceOrder(s, id, ct, q, org, ed, od)
    case CreateBatchTx(bid, oid, q, owner) => CreateBatch(s, bid, oid, q, owner)
    case ShipBatchTx(bid, owner) => ShipBatch(s, bid, owner)
    case UpdateTemperatureAndHumidityTx(bid, t, h) => UpdateTemperatureAndHumidity(s, bid, t, h)
    case DeliverBatchTx(bid, owner) => DeliverBatch(s, bid, owner)
  }

  /** The world state after a sequence of transactions; one that throws
      commits nothing. */
  function Run(s: Store, txs: seq<Transaction>): Store
    decreases |txs|
  {
    if |txs| == 0 then s
    else
      var r := Apply(s, txs[0]);
      Run(if r.Ok? then r.value else s, txs[1..])
  }

  /** Every transaction that succeeds on a consistent state leaves it consistent. */
  lemma ApplyPreservesConsistency(s: Store, tx: Transaction)
    requires Consistent(s)
    ensures Apply(s, tx).Ok? ==> Consistent(Apply(s, tx).value)
  {
    if Apply(s, tx).Ok? {
      match tx
      case PlaceOrderTx(id, ct, q, org, ed, od) => PlaceOrderPreservesConsistency(s, id, ct, q, org, ed, od);
      case CreateBatchTx(bid, oid, q, owner) => CreateBatchPreservesConsistency(s, bid, oid, q, owner);
      case ShipBatchTx(bid, owner) => ShipBatchPreservesConsistency(s, bid, owner);
      case UpdateTemperatureAndHumidityTx(bid, t, h) => UpdateTemperatureAndHumidityPreservesConsistency(s, bid, t, h);
      case DeliverBatchTx(bid, owner) => DeliverBatchPreservesConsistency(s, bid, owner);
    }
  }

  /** Any sequence of transactions keeps a consistent state consistent. */
  lemma {:induction false} RunPreservesConsistency(s: Store, txs: seq<Transaction>)
    requires Consistent(s)
    ensures Consistent(Run(s, txs))
    decreases |txs|
  {
    if |txs| > 0 {
      ApplyPreservesConsistency(s, txs[0]);
      var r := Apply(s, txs[0]);
      RunPreservesConsistency(if r.Ok? then r.value else s, txs[1..]);
    }
  }

  /** Every state reachable from the empty ledger is consistent: batch ids
      listed in orders always name existing, distinct batches of that order. */
  lemma Reachable(txs: seq<Transaction>)
    ensures Consistent(Run(map[], txs))
  {
    EmptyConsistent();
    RunPreservesConsistency(map[], txs);
  }
}

=== FILE: kinds.dfy ===
/** shipBatch as written when the key holds an order. The contract parses
    whatever is stored under the key and reads its `orderId` property. An
    order has one too, and it is the order's own key. So the presence test
    passes, and the order is written back with the batch status 'IN_TRANSIT'
    and a `productOwner`. */
module RecordKinds {
  import opened Wrappers
  import opened Records
  import opened Ledger
  import opened Chaincode

  /** The `orderId` property of a stored record, whichever kind it is. */
  function OrderIdOf(r: Record): string {
    match r
    case OrderRecord(o) => o.orderId
    case BatchRecord(b) => b.orderId
  }

  /** The object shipBatch writes back: the parsed record with `status` and
      `productOwner` overwritten. */
  datatype Patched = Patched(base: Record, status: string, productOwner: string)

  /** shipBatch with no check of the record's kind, as the code does it. */
  function ShipBatchAsWritten(s: Store, batchId: string, productOwner: string): (r: Result<Patched, Error>)
    ensures batchId !in s ==> r == Err(NotFound(batchId))
    ensures r.Ok? <==> batchId in s && OrderIdOf(s[batchId]) in s
    ensures r.Ok? ==> r.value.base == s[batchId] && r.value.status == InTransit.Name()
                      && r.value.productOwner == productOwner
  {
    if batchId !in s then Err(NotFound(batchId))
    else
      var orderId := OrderIdOf(s[batchId]);
      if orderId !in s then Err(NotFound(orderId))
      else Ok(Patched(s[batchId], "IN_TRANSIT", productOwner))
  }

  /** On a key holding a batch, the code and the model agree: both succeed or
      both fail, and on success they write the same status and owner. */
  lemma ShipBatchAsWrittenOnBatch(s: Store, batchId: string, productOwner: string)
    requires HoldsBatch(s, batchId)
    ensures ShipBatchAsWritten(s, batchId, productOwner).Ok? <==> ShipBatch(s, batchId, productOwner).Ok?
    ensures ShipBatch(s, batchId, productOwner).Ok? ==>
      var p, b := ShipBatchAsWritten(s, batchId, productOwner).value, ShipBatch(s, batchId, productOwner).value[batchId].batch;
      b.status.Name() == p.status && b.productOwner == p.productOwner
  {
  }

  /** In a consistent state, shipping an order key succeeds as written and
      stores a status string no order status is written as. The model
      refuses it. */
  lemma ShipBatchOverwritesOrder(s: Store, orderId: string, productOwner: string)
    requires Consistent(s)
    requires HoldsOrder(s, orderId)
    ensures ShipBatchAsWritten(s, orderId, productOwner).Ok?
    ensures ParseOrderStatus(ShipBatchAsWritten(s, orderId, productOwner).value.status).None?
    ensures ShipBatch(s, orderId, productOwner) == Err(WrongKind(orderId))
  {
    assert s[orderId].order.orderId == orderId;
  }
}

=== FILE: ledger.dfy ===
/** The world state the chaincode reads and writes: one key space shared by
    orders and batches, the errors a transaction can throw, and the
    cross-record invariant every transaction preserves. */
module Ledger {
  import opened Wrappers
  import opened Records

  /** Current state: a key is present exactly when it holds non-empty bytes. */
  type Store = map<string, Record>

  /** Why a transaction threw. A thrown transaction writes nothing. */
  datatype Error =
    | AlreadyExists(key: string)   // creation on an occupied key
    | NotFound(key: string)        // a key that must be present is absent
    | NotInTransit(key: string)    // delivery of a batch not in transit
    | WrongKind(key: string)       // the key holds the other kind of record

  predicate HoldsOrder(s: Store, k: string) {
    k in s && s[k].OrderRecord?
  }

  predicate HoldsBatch(s: Store, k: string) {
    k in s && s[k].BatchRecord?
  }

  predicate Distinct(ids: seq<string>) {
    forall i, j | 0 <= i < j < |ids| :: ids[i] != ids[j]
  }

  /** The order at `k` lists only batches that exist and name `k` as their
      order, each once. */
  predicate ListsOwnBatches(s: Store, k: string)
    requires HoldsOrder(s, k)
  {
    var ids := s[k].order.batchIds;
    && Distinct(ids)
    && forall i | 0 <= i < |ids| :: HoldsBatch(s, ids[i]) && s[ids[i]].batch.orderId == k
  }

  /** The batch at `k` is stored under its own id, and its order exists and
      lists it. */
  predicate BatchLinked(s: Store, k: string)
    requires HoldsBatch(s, k)
  {
    var b := s[k].batch;
    && b.batchId == k
    && HoldsOrder(s, b.orderId)
    && k in s[b.orderId].order.batchIds
  }

  /** Referential integrity between orders and batches. */
  predicate Consistent(s: Store) {
    && (forall k | k in s && HoldsOrder(s, k) :: s[k].order.orderId == k && ListsOwnBatches(s, k))
    && (forall k | k in s && HoldsBatch(s, k) :: BatchLinked(s, k))
  }

  /** The first of `ids` that is absent from the store, if any. */
  function FirstMissing(s: Store, ids: seq<string>): (r: Option<string>)
    ensures r.None? <==> forall i | 0 <= i < |ids| :: ids[i] in s
    ensures r.Some? ==> r.value in ids && r.value !in s
    ensures r.Some? ==> exists i | 0 <= i < |ids| :: ids[i] == r.value && forall j | 0 <= j < i :: ids[j] in s
  {
    if |ids| == 0 then None
    else if ids[0] !in s then Some(ids[0])
    else FirstMissing(s, ids[1..])
  }

  /** Sum of the stored `quantity` properties of the records under `ids`. */
  function SumQuantities(s: Store, ids: seq<string>): (r: int)
    requires forall i | 0 <= i < |ids| :: ids[i] in s
    ensures |ids| == 1 ==> r == s[ids[0]].Quantity()
    ensures (forall i | 0 <= i < |ids| :: s[ids[i]].Quantity() >= 0) ==> r >= 0
    ensures (forall i | 0 <= i < |ids| :: s[ids[i]].Quantity() >= 0) ==>
              forall i | 0 <= i < |ids| :: r >= s[ids[i]].Quantity()
  {
    if |ids| == 0 then 0 else s[ids[0]].Quantity() + SumQuantities(s, ids[1..])
  }

  /** The sum depends only on the quantities stored under the listed keys. */
  lemma {:induction false} SumQuantitiesFrame(s: Store, s': Store, ids: seq<string>)
    requires forall i | 0 <= i < |ids| :: ids[i] in s && ids[i] in s' && s[ids[i]].Quantity() == s'[ids[i]].Quantity()
    ensures SumQuantities(s, ids) == SumQuantities(s', ids)
  {
    if |ids| > 0 {
      SumQuantitiesFrame(s, s', ids[1..]);
    }
  }

  /** In a consistent store no batch id is listed by two different orders. */
  lemma NoBatchInTwoOrders(s: Store, k1: string, k2: string, id: string)
    requires Consistent(s)
    requires HoldsOrder(s, k1) && HoldsOrder(s, k2)
    requires id in s[k1].order.batchIds && id in s[k2].order.batchIds
    ensures k1 == k2
  {
    assert ListsOwnBatches(s, k1) && ListsOwnBatches(s, k2);
    var i :| 0 <= i < |s[k1].order.batchIds| && s[k1].order.batchIds[i] == id;
    var j :| 0 <= j < |s[k2].order.batchIds| && s[k2].order.batchIds[j] == id;
  }

  /** The empty world state is consistent. */
  lemma EmptyConsistent()
    ensures Consistent(map[])
  {
  }
}

=== FILE: reconciliation.dfy ===
/** Order reconciliation on delivery as the contract's comment describes it:
    the order is fulfilled only once every batch it lists is delivered. The
    contract as written tests the just-delivered batch's own status in its
    "all delivered" guard, so it reconciles after every delivery, counting
    batches that have not arrived. */
module Reconciliation {
  import opened Wrappers
  import opened Records
  import opened Ledger
  import opened Chaincode
  import Invariants

  /** Every listed batch other than `batchId` is stored and delivered. */
  predicate OthersDelivered(s: Store, ids: seq<string>, batchId: string) {
    forall i | 0 <= i < |ids| :: ids[i] == batchId || (HoldsBatch(s, ids[i]) && s[ids[i]].batch.status == Delivered)
  }

  /** deliverBatch with the guard it was meant to have: the batch is always
      marked delivered; the order is reconciled only when every listed batch
      is then delivered, and only then are the listed batches read. */
  function DeliverBatchIntended(s: Store, batchId: string, productOwner: string): (r: Result<Store, Error>)
    ensures !HoldsBatch(s, batchId) ==> r.Err?
    ensures HoldsBatch(s, batchId) && s[batchId].batch.orderId !in s ==> r == Err(NotFound(s[batchId].batch.orderId))
    ensures HoldsBatch(s, batchId) && s[batchId].batch.orderId in s && s[batchId].batch.status != InTransit ==>
      r == Err(NotInTransit(batchId))
    ensures r.Ok? <==> HoldsBatch(s, batchId) && s[batchId].batch.status == InTransit && HoldsOrder(s, s[batchId].batch.orderId)
    ensures r.Ok? ==> var b := s[batchId].batch; var o := s[b.orderId].order;
      && r.value.Keys == s.Keys + {o.orderId}
      && HoldsOrder(r.value, o.orderId)
      && (batchId != o.orderId ==>
            && HoldsBatch(r.value, batchId)
            && r.value[batchId].batch == b.(status := Delivered, productOwner := productOwner))
      && (r.value[o.orderId].order.status == OrderFulfilled && o.status != OrderFulfilled ==>
            OthersDelivered(s, o.batchIds, batchId))
      && forall k | k in s && k != batchId && k != o.orderId :: r.value[k] == s[k]
  {
    if batchId !in s then Err(NotFound(batchId))
    else if !s[batchId].BatchRecord? then Err(WrongKind(batchId))
    else
      var batch := s[batchId].batch;
      if batch.orderId !in s then Err(NotFound(batch.orderId))
      else if batch.status != InTransit then Err(NotInTransit(batchId))
      else if !s[batch.orderId].OrderRecord? then Err(WrongKind(batch.orderId))
      else
        var order := s[batch.orderId].order;
        var delivered := batch.(status := Delivered, productOwner := productOwner);
        var s' := s[batchId := BatchRecord(delivered)];
        if OthersDelivered(s, order.batchIds, batchId) then
          var total := SumQuantities(s, order.batchIds);
          Ok(s'[order.orderId := OrderRecord(Reconcile(order, total))])
        else
          Ok(s'[order.orderId := OrderRecord(order)])
  }

  /** In a consistent state, an order the intended delivery newly fulfils has
      every one of its batches delivered afterwards. */
  lemma IntendedFulfilsOnlyWhenAllDelivered(s: Store, batchId: string, productOwner: string)
    requires Consistent(s)
    requires DeliverBatchIntended(s, batchId, productOwner).Ok?
    ensures var s' := DeliverBatchIntended(s, batchId, productOwner).value;
      var o := s[s[batchId].batch.orderId].order;
      s'[o.orderId].order.status == OrderFulfilled && o.status != OrderFulfilled ==>
        forall i | 0 <= i < |o.batchIds| :: HoldsBatch(s', o.batchIds[i]) && s'[o.batchIds[i]].batch.status == Delivered
  {
    var s' := DeliverBatchIntended(s, batchId, productOwner).value;
    var b := s[batchId].batch;
    var o := s[b.orderId].order;
    assert BatchLinked(s, batchId);
    assert ListsOwnBatches(s, b.orderId);
    if s'[o.orderId].order.status == OrderFulfilled && o.status != OrderFulfilled {
      forall i | 0 <= i < |o.batchIds|
        ensures HoldsBatch(s', o.batchIds[i]) && s'[o.batchIds[i]].batch.status == Delivered
      {
        assert o.batchIds[i] != o.orderId;
      }
    }
  }

  /** When the other listed batches are already delivered, the intended rule
      and the contract as written agree. */
  lemma IntendedAgreesWhenOthersDelivered(s: Store, batchId: string, productOwner: string)
    requires HoldsBatch(s, batchId) && HoldsOrder(s, s[batchId].batch.orderId)
    requires OthersDelivered(s, s[s[batchId].batch.orderId].order.batchIds, batchId)
    ensures DeliverBatchIntended(s, batchId, productOwner) == DeliverBatch(s, batchId, productOwner)
  {
    var o := s[s[batchId].batch.orderId].order;
    assert FirstMissing(s, o.batchIds).None?;
  }

  /** The intended rule fails with exactly the error deliverBatch raises, and
      on a consistent state the two succeed together. Off a consistent state
      deliverBatch can also fail on a listed id that is absent, which the
      intended rule never reads, since an absent batch is not delivered. */
  lemma IntendedFailsLikeDeliverBatch(s: Store, batchId: string, productOwner: string)
    ensures DeliverBatchIntended(s, batchId, productOwner).Err? ==>
      DeliverBatchIntended(s, batchId, productOwner) == DeliverBatch(s, batchId, productOwner)
    ensures Consistent(s) ==>
      (DeliverBatchIntended(s, batchId, productOwner).Ok? <==> DeliverBatch(s, batchId, productOwner).Ok?)
  {
    if Consistent(s) && HoldsBatch(s, batchId) {
      assert BatchLinked(s, batchId);
      var orderId := s[batchId].batch.orderId;
      assert ListsOwnBatches(s, orderId);
    }
  }

  lemma DeliverBatchIntendedPreservesConsistency(s: Store, batchId: string, productOwner: string)
    requires Consistent(s)
    requires DeliverBatchIntended(s, batchId, productOwner).Ok?
    ensures Consistent(DeliverBatchIntended(s, batchId, productOwner).value)
  {
    var b := s[batchId].batch;
    assert BatchLinked(s, batchId);
    var o := s[b.orderId].order;
    assert o.orderId == b.orderId && b.orderId != batchId;
    var delivered := b.(status := Delivered, productOwner := productOwner);
    var settled := if OthersDelivered(s, o.batchIds, batchId) then Reconcile(o, SumQuantities(s, o.batchIds)) else o;
    Invariants.RewriteLinkedPair(s, batchId, b.orderId, delivered, settled);
  }
}

=== FILE: records.dfy ===
/** The two record kinds the coffee chaincode keeps in its world state, the
    status strings it writes into them, and the field defaults of the
    `Order` and `Batch` model classes. */
module Records {
  import opened Wrappers

  /** Status of an order, as written by the chaincode. */
  datatype OrderStatus = OrderPlaced | InProgress | OrderFulfilled {

    /** The string stored in the JSON record (note the source's spelling). */
    function Name(): string {
      match this
      case OrderPlaced => "ORDER_PLACED"
      case InProgress => "IN_PROGRESS"
      case OrderFulfilled => "ORDER_FULLFILLED"
    }
  }

  /** Status of a batch, as written by the chaincode. */
  datatype BatchStatus = AtFarm | ReadyForDelivery | InTransit | Delivered {

    function Name(): string {
      match this
      case AtFarm => "AT_FARM"
      case ReadyForDelivery => "READY_FOR_DELIVERY"
      case InTransit => "IN_TRANSIT"
      case Delivered => "DELIVERED"
    }
  }

  /** Reads an order status back from its stored string. */
  function ParseOrderStatus(s: string): (r: Option<OrderStatus>)
    ensures r.Some? ==> r.value.Name() == s
    ensures r.None? ==> forall st: OrderStatus :: st.Name() != s
  {
    if s == "ORDER_PLACED" then Some(OrderPlaced)
    else if s == "IN_PROGRESS" then Some(InProgress)
    else if s == "ORDER_FULLFILLED" then Some(OrderFulfilled)
    else None
  }

  /** Reads a batch status back from its stored string. */
  function ParseBatchStatus(s: string): (r: Option<BatchStatus>)
    ensures r.Some? ==> r.value.Name() == s
    ensures r.None? ==> forall st: BatchStatus :: st.Name() != s
  {
    if s == "AT_FARM" then Some(AtFarm)
    else if s == "READY_FOR_DELIVERY" then Some(ReadyForDelivery)
    else if s == "IN_TRANSIT" then Some(InTransit)
    else if s == "DELIVERED" then Some(Delivered)
    else None
  }

  /** Distinct statuses are written as distinct strings, so reading a status
      back recovers it and the chaincode's string comparisons (such as the
      test against 'IN_TRANSIT') decide the same thing as comparing statuses. */
  lemma StatusNamesRoundTrip(o: OrderStatus, b: BatchStatus)
    ensures ParseOrderStatus(o.Name()) == Some(o)
    ensures ParseBatchStatus(b.Name()) == Some(b)
    ensures b.Name() == "IN_TRANSIT" <==> b == InTransit
  {
  }

  /** An order as stored under its `orderId`. */
  datatype Order = Order(
    docType: string,
    orderId: string,
    coffeeType: string,
    quantity: int,
    orderingOrg: string,
    orderDate: string,
    expectedDelivery: string,
    status: OrderStatus,
    batchIds: seq<string>)

  /** A batch as stored under its `batchId`. The stored object also carries
      `orderId` and `productOwner`, which the model class does not declare. */
  datatype Batch = Batch(
    docType: string,
    batchId: string,
    orderId: string,
    productOwner: string,
    status: BatchStatus,
    quantity: int,
    temperature: Option<int>,
    humidity: Option<int>)

  /** Orders and batches share one key space. */
  datatype Record = OrderRecord(order: Order) | BatchRecord(batch: Batch) {

    /** The `quantity` property of the stored object, whichever kind it is. */
    function Quantity(): int {
      match this
      case OrderRecord(o) => o.quantity
      case BatchRecord(b) => b.quantity
    }
  }

  /** `b'` describes the same goods as `b`: same document type, id, order and
      quantity. Ship, telemetry and delivery updates keep these. */
  predicate SameGoods(b: Batch, b': Batch) {
    && b'.docType == b.docType
    && b'.batchId == b.batchId
    && b'.orderId == b.orderId
    && b'.quantity == b.quantity
  }

  /** `new Order()`: every property at its declared initial value. */
  function NewOrder(): Order {
    Order("order", "", "", 0, "", "", "", OrderPlaced, [])
  }

  /** `new Batch()`. The class leaves `orderId` and `productOwner` undeclared;
      the model gives them the empty string. */
  function NewBatch(): Batch {
    Batch("batch", "", "", "", AtFarm, 0, None, None)
  }

  /** The field defaults a fresh order starts from. */
  lemma FreshOrderDefaults()
    ensures NewOrder().docType == "order"
    ensures NewOrder().orderId == "" && NewOrder().coffeeType == "" && NewOrder().orderingOrg == ""
    ensures NewOrder().orderDate == "" && NewOrder().expectedDelivery == ""
    ensures NewOrder().quantity == 0
    ensures NewOrder().status.Name() == "ORDER_PLACED"
    ensures NewOrder().batchIds == []
  {
  }

  /** The field defaults a fresh batch starts from. */
  lemma FreshBatchDefaults()
    ensures NewBatch().docType == "batch" && NewBatch().batchId == ""
    ensures NewBatch().status.Name() == "AT_FARM"
    ensures NewBatch().quantity == 0
    ensures NewBatch().temperature.None? && NewBatch().humidity.None?
  {
  }
}

=== FILE: scenarios.dfy ===
/** Concrete runs of the contract: the client script's sequence of
    transactions, an under-supplied order, and the run that shows the
    reconciliation guard counting a batch that has not been delivered,
    shipBatch called on an order's key, and an order listing an absent
    batch. */
module Scenarios {
  import opened Wrappers
  import opened Records
  import opened Ledger
  import opened Chaincode
  import opened Reconciliation
  import opened RecordKinds

  const Placed := "2025-01-01T00:00:00.000Z"

  /** place, create, ship, two readings, deliver: the batch ends delivered to
      ORG3 with the last readings and the order is fulfilled. */
  lemma ClientScriptFulfilsOrder()
    ensures var s1 := PlaceOrder(map[], "O1", "Arabica", 100, "ORG3", "2025-11-10", Placed);
      s1.Ok? && s1.value["O1"].order.status == OrderPlaced && s1.value["O1"].order.batchIds == [] &&
      var s2 := CreateBatch(s1.value, "B1", "O1", 100, "ORG1");
      s2.Ok? && s2.value["O1"].order.status == InProgress && s2.value["O1"].order.batchIds == ["B1"] &&
      var s3 := ShipBatch(s2.value, "B1", "ORG2");
      s3.Ok? && s3.value["B1"].batch.status == InTransit &&
      var s4 := UpdateTemperatureAndHumidity(s3.value, "B1", 30, 10);
      s4.Ok? &&
      var s5 := UpdateTemperatureAndHumidity(s4.value, "B1", 32, 12);
      s5.Ok? &&
      var s6 := DeliverBatch(s5.value, "B1", "ORG3");
      && s6.Ok?
      && s6.value["B1"] == BatchRecord(Batch("batch", "B1", "O1", "ORG3", Delivered, 100, Some(32), Some(12)))
      && s6.value["O1"].order.status == OrderFulfilled
  {
    var s1 := PlaceOrder(map[], "O1", "Arabica", 100, "ORG3", "2025-11-10", Placed).value;
    assert "B1" != "O1";
    var s2 := CreateBatch(s1, "B1", "O1", 100, "ORG1").value;
    var s3 := ShipBatch(s2, "B1", "ORG2").value;
    var s4 := UpdateTemperatureAndHumidity(s3, "B1", 30, 10).value;
    var s5 := UpdateTemperatureAndHumidity(s4, "B1", 32, 12).value;
    assert s5["O1"].order.batchIds == ["B1"];
    assert SumQuantities(s5, ["B1"]) == 100;
  }

  /** An order for 150 with a single delivered batch of 100 stays in progress. */
  lemma UnderSuppliedOrderNotFulfilled()
    ensures var s1 := PlaceOrder(map[], "O1", "Arabica", 150, "ORG3", "2025-11-10", Placed);
      s1.Ok? &&
      var s2 := CreateBatch(s1.value, "B1", "O1", 100, "ORG1");
      s2.Ok? &&
      var s3 := ShipBatch(s2.value, "B1", "ORG2");
      s3.Ok? &&
      var s4 := DeliverBatch(s3.value, "B1", "ORG3");
      && s4.Ok?
      && s4.value["B1"].batch.status == Delivered
      && s4.value["O1"] == s3.value["O1"]
      && s4.value["O1"].order.status == InProgress
  {
    var s1 := PlaceOrder(map[], "O1", "Arabica", 150, "ORG3", "2025-11-10", Placed).value;
    assert "B1" != "O1";
    var s2 := CreateBatch(s1, "B1", "O1", 100, "ORG1").value;
    var s3 := ShipBatch(s2, "B1", "ORG2").value;
    assert s3["O1"].order.batchIds == ["B1"];
    assert SumQuantities(s3, ["B1"]) == 100;
  }

  /** Order O1 for 100 with batches B1 (shipped) and B2 (still waiting),
      60 each. */
  function SplitOrderState(): Store {
    map[
      "O1" := OrderRecord(Order("order", "O1", "Arabica", 100, "ORG3", Placed, "2025-11-10", InProgress, ["B1", "B2"])),
      "B1" := BatchRecord(Batch("batch", "B1", "O1", "ORG2", InTransit, 60, None, None)),
      "B2" := BatchRecord(Batch("batch", "B2", "O1", "ORG1", ReadyForDelivery, 60, None, None))]
  }

  /** Placing the order, creating both batches and shipping the first one
      reaches that state. */
  lemma SplitOrderReached()
    ensures var s1 := PlaceOrder(map[], "O1", "Arabica", 100, "ORG3", "2025-11-10", Placed);
      s1.Ok? &&
      var s2 := CreateBatch(s1.value, "B1", "O1", 60, "ORG1");
      s2.Ok? &&
      var s3 := CreateBatch(s2.value, "B2", "O1", 60, "ORG1");
      s3.Ok? &&
      var s4 := ShipBatch(s3.value, "B1", "ORG2");
      s4.Ok? && s4.value == SplitOrderState()
  {
    var s1 := PlaceOrder(map[], "O1", "Arabica", 100, "ORG3", "2025-11-10", Placed).value;
    assert "B1" != "O1" && "B2" != "O1" && "B1" != "B2";
    var s2 := CreateBatch(s1, "B1", "O1", 60, "ORG1").value;
    var s3 := CreateBatch(s2, "B2", "O1", 60, "ORG1").value;
    var s4 := ShipBatch(s3, "B1", "ORG2").value;
    assert s3["O1"].order.batchIds == [] + ["B1"] + ["B2"] == ["B1", "B2"];
    assert s4["O1"] == SplitOrderState()["O1"];
    assert s4["B1"] == SplitOrderState()["B1"];
    assert s4["B2"] == SplitOrderState()["B2"];
    assert s4.Keys == SplitOrderState().Keys;
  }

  /** An order for 100 split into two batches of 60. Delivering the first
      fulfils the order as written although the second is still waiting to be
      shipped; the intended rule leaves the order in progress. */
  lemma FulfilledBeforeAllDelivered()
    ensures var s1 := PlaceOrder(map[], "O1", "Arabica", 100, "ORG3", "2025-11-10", Placed);
      s1.Ok? &&
      var s2 := CreateBatch(s1.value, "B1", "O1", 60, "ORG1");
      s2.Ok? &&
      var s3 := CreateBatch(s2.value, "B2", "O1", 60, "ORG1");
      s3.Ok? &&
      var s4 := ShipBatch(s3.value, "B1", "ORG2");
      s4.Ok? &&
      var asWritten := DeliverBatch(s4.value, "B1", "ORG3");
      var intended := DeliverBatchIntended(s4.value, "B1", "ORG3");
      && asWritten.Ok?
      && asWritten.value["O1"].order.status == OrderFulfilled
      && asWritten.value["B2"].batch.status == ReadyForDelivery
      && intended.Ok?
      && intended.value["O1"].order.status == InProgress
      && intended.value["B1"].batch.status == Delivered
  {
    SplitOrderReached();
    var s := SplitOrderState();
    assert "B1" != "O1" && "B2" != "O1" && "B1" != "B2";
    assert ["B1", "B2"][1..] == ["B2"];
    assert SumQuantities(s, ["B2"]) == 60;
    assert SumQuantities(s, ["B1", "B2"]) == 120;
    assert !OthersDelivered(s, ["B1", "B2"], "B1") by {
      assert s["B2"].batch.status == ReadyForDelivery;
    }
  }

  /** shipBatch on the key of an order: as written it writes the order back
      as in transit; the model refuses it. */
  lemma ShipOrderKey()
    ensures var s1 := PlaceOrder(map[], "O1", "Arabica", 100, "ORG3", "2025-11-10", Placed);
      s1.Ok? &&
      var asWritten := ShipBatchAsWritten(s1.value, "O1", "ORG2");
      && asWritten.Ok?
      && asWritten.value == Patched(s1.value["O1"], "IN_TRANSIT", "ORG2")
      && ShipBatch(s1.value, "O1", "ORG2") == Err(WrongKind("O1"))
  {
  }

  /** An order listing a batch id that is not stored (a state no transaction
      reaches): deliverBatch throws on the absent id, while the intended rule
      does not read the listed batches, since one of them is not delivered. */
  lemma AbsentListedBatch()
    ensures var s := map[
        "O1" := OrderRecord(Order("order", "O1", "Arabica", 100, "ORG3", Placed, "2025-11-10", InProgress, ["B1", "X"])),
        "B1" := BatchRecord(Batch("batch", "B1", "O1", "ORG2", InTransit, 60, None, None))];
      && DeliverBatch(s, "B1", "ORG3") == Err(NotFound("X"))
      && DeliverBatchIntended(s, "B1", "ORG3").Ok?
  {
    var s := map[
      "O1" := OrderRecord(Order("order", "O1", "Arabica", 100, "ORG3", Placed, "2025-11-10", InProgress, ["B1", "X"])),
      "B1" := BatchRecord(Batch("batch", "B1", "O1", "ORG2", InTransit, 60, None, None))];
    assert "X" !in s;
    assert ["B1", "X"][1..] == ["X"];
  }
}

=== FILE: wrappers.dfy ===
/** An optional value and the outcome of a chaincode transaction. */
module Wrappers {

  /** A value that may be absent (an optional JSON property). */
  datatype Option<+T> = None | Some(value: T)

  /** The outcome of one transaction: either its result or the error it threw. */
  datatype Result<+T, +E> = Ok(value: T) | Err(error: E)
}
